=== FILE: README.md ===
# Utatle quiz core in Dafny

Utatle is a browser lyrics quiz: it shows Japanese lyrics, the player types
the song title, and the page grades the guess. This project models the
logic of the quiz page `src/App.js`:

- **Edit distance.** `levenshtein` fills an (m+1) x (n+1) table.
  `EditDistance.Levenshtein` does the same over a Dafny `array2`. Its loop
  invariants state that every filled cell `dp[i, j]` is `Dist(a[..i], b[..j])`.
  `Dist` is a recursive reference definition of edit distance. The usual
  metric facts are proved as lemmas: base cases, distance 0 iff equal,
  symmetry, and the length bounds.
- **Title normalization.** `normalize` runs six passes. It lower-cases the
  text, deletes `\s`, and keeps only `\p{L}` and `\p{N}`. Then three regular
  expressions each make one left-to-right, delete-all scan. Once spaces and
  dots are gone, each of these regular expressions is an ordered list of
  literal words, matched case-insensitively:
  - `feat`, `featuring`, `ft`
  - `producedby`, `prodby`, `prod` (the optional `uced` is greedy)
  - `remix`, `instversion`, `instversio`

  The words are tried in order at each position. So `featuring` can never
  match, and "featuring" loses only "feat". Because each scan runs once,
  `normalize` is not idempotent ("ffeatt" becomes "ft", and "ft" becomes "").
- **Grading.** `check` accepts a guess when the normalized strings are equal
  or when their edit distance is at most `max(1, floor(0.15 * |b|))`, where
  `b` is the normalized title. JavaScript measures lengths and distances in
  UTF-16 code units, so the model encodes both strings with `Utf16.Encode`
  before comparing.
- **Quiz state.** The screen state is `QuizState.Model`: the status
  idle | loading | playing | correct | giveup, the current quiz, the
  feedback, the error, both hint flags, the chart year and month, and the
  match code. Every handler is a function on `Model`. Each asynchronous
  loader is a begin step that records the request it sends. The request
  later settles as a success (with data) or a failure step. `Step` applies
  an event only when the page allows it: disabled buttons and inputs cannot
  fire, and a request settles only while one is in flight. `Valid` is the
  invariant of every reachable state. A quiz request that answers `null`
  leaves the page playing with no quiz, as the code does; `Valid` allows
  this one quiz-less state besides idle and loading.

Two Unicode services are parameters, because the model cannot reproduce
them: the lower case `toLowerCase` gives for each position of a string, and
membership in `\p{L}` / `\p{N}`. The lower case of a position may be
several characters (U+0130 gives two) and may depend on the characters
around it: under Unicode's Final_Sigma rule "ΑΣ" becomes "ας" but "ΣΑ"
becomes "σα". So the case parameter sees the whole string and a position,
not one character. Both are passed as `TitleNormalization.CharModel`, and
every property holds for every choice of them. The `\s` class is concrete:
the ECMAScript WhiteSpace and LineTerminator code points.

`normalize` does not fold diacritics. A precomposed accented letter such as
U+00E9 is in `\p{L}` and stays, so a precomposed "café" and "cafe"
normalize differently. A combining mark such as U+0301 is in `\p{M}`, not
`\p{L}` or `\p{N}`, so it is deleted: an accent written as a separate
combining mark is lost, and a decomposed "café" normalizes to "cafe".

## Model

| member | source | states |
|---|---|---|
| EditDistance.Levenshtein | src/App.js:25-41 | the table's bottom-right cell is the edit distance `Dist(a, b)`; with an empty side it is the other side's length |
| EditDistance.FillRow | src/App.js:32-39 | one pass of the inner loop fills row `i` with the distances of `a[..i]` to every prefix of `b`, leaving other rows' first cells alone |
| EditDistance.DistStep | src/App.js:33-38 | a cell is the minimum of deletion, insertion and substitution (cost 0 on equal characters) over the neighbouring prefixes |
| EditDistance.DistSelf | src/App.js:31-39 | a string is at distance 0 from itself |
| EditDistance.DistLowerBound | src/App.js:31-39 | the distance is at least the difference of the lengths |
| EditDistance.DistUpperBound | src/App.js:31-39 | the distance is at most the longer length |
| EditDistance.DistZeroOnlyIfEqual | src/App.js:31-39 | distance 0 forces equal strings |
| EditDistance.DistZeroIffEqual | src/App.js:31-40 | distance 0 holds exactly when the strings are equal |
| EditDistance.DistSymmetric | src/App.js:31-39 | the distance does not depend on the order of its arguments |
| Utf16.EncodeChar | src/App.js:26-27 | a character is one code unit below U+10000 (never a surrogate) and a high/low surrogate pair above |
| Utf16.Encode | src/App.js:26-27 | the code units a string's `length` counts: between one and two per character, none only for the empty string |
| Utf16.EncodeCharInjective | src/App.js:33 | different characters have different code units |
| Utf16.EncodeInjective | src/App.js:135 | two strings have equal code units exactly when they are equal, so `a === b` can be decided on the encodings |
| Utf16.EncodeLengthBmp | src/App.js:26-27 | for text inside the Basic Multilingual Plane, `length` is the number of characters |
| JsText.AsciiFold | src/App.js:21-23 | under the non-Unicode `i` flag, only a letter and its ASCII upper case match a lower-case ASCII letter |
| JsText.Filter | src/App.js:19-20 | deleting the characters outside a class leaves a subsequence of the input, made of characters in the class, with one character per position in the class; it changes nothing when every character is in the class |
| JsText.FilterUnique | src/App.js:19-20 | the filter result is the only subsequence of that kind, so every character in the class survives, repeated ones included |
| JsText.FilterMultiset | src/App.js:19-20 | each character in the class occurs in the result as often as in the input; characters outside it do not occur |
| JsText.SubsequenceCountBound | src/App.js:19-20 | a subsequence made of characters in a class has at most as many characters as the input has positions in the class |
| JsText.LeadingSpace | src/App.js:112 | counts the whitespace before the first other character |
| JsText.TrailingSpace | src/App.js:112 | counts the whitespace after the last other character |
| JsText.Trim | src/App.js:112 | `trim()` removes only whitespace from the two ends, leaves no whitespace at either end, and is empty exactly for all-whitespace input |
| TitleNormalization.Lowercase | src/App.js:18 | lower-casing keeps the length when every position maps to one character, and is the identity on text whose every position is already lower case |
| TitleNormalization.LowercaseFrom | src/App.js:18 | the same for the positions from `k` on: the result is the suffix when each position is its own lower case |
| TitleNormalization.RemoveWhitespace | src/App.js:19 | the result has no `\s` character and is the subsequence keeping every other character, one per position |
| TitleNormalization.KeepLettersAndDigits | src/App.js:20 | the result is the subsequence keeping every letter and digit, one per position, and nothing else |
| TitleNormalization.Clean | src/App.js:17-20 | after the three character passes every character is a letter or digit and none is `\s` |
| TitleNormalization.FirstMatch | src/App.js:21-23 | the alternative a regex matches at a position is the first in order that matches; none exactly when no alternative matches |
| TitleNormalization.DeleteWords | src/App.js:21-23 | a global delete of the alternatives only deletes characters |
| TitleNormalization.DeleteWordsUnchangedIff | src/App.js:21-23 | a delete pass leaves a string unchanged exactly when no alternative matches at any position |
| TitleNormalization.Normalize | src/App.js:16-23 | every character of the result is a letter or digit and none is whitespace |
| TitleNormalization.WordPasses | src/App.js:21-23 | the three word passes, run after the character filters, only delete characters |
| NormalizeExamples.FinalSigmaExpressible | src/App.js:18 | a case mapping with the Final_Sigma rule is a valid parameter: "ΑΣ" lower-cases to "ας" and "ΣΑ" to "σα" |
| NormalizeExamples.FeaturingNeverMatches | src/App.js:21 | the `featuring` alternative never matches: wherever it could, `feat` matches first |
| NormalizeExamples.ProdWithoutByIsDeleted | src/App.js:22 | "prod" not followed by "by" or "ucedby" is deleted as `prod` alone |
| NormalizeExamples.FeaturingLosesOnlyFeat | src/App.js:21 | the first pass turns "featuring" into "uring" |
| NormalizeExamples.NormalizeNotIdempotent | src/App.js:16-23 | normalizing "ffeatt" gives "ft", and normalizing that again gives "" |
| NormalizeExamples.NoInitialsKept | src/App.js:21-23 | a delete pass leaves alone a string where no word's first letter occurs |
| Grading.Tolerance | src/App.js:135 | the tolerance is at least 1 and is otherwise the floor of 15% of the length |
| Grading.Accepts | src/App.js:132-135 | the acceptance rule: a guess is accepted exactly when the code-unit distance of the normalized strings is within the tolerance, and always on an exact normalized match |
| Grading.AcceptsIffWithinTolerance | src/App.js:132-135 | a guess is accepted exactly when its distance to the normalized title is within the tolerance; the equality disjunct is implied |
| Grading.DistanceZeroIffSameNormalized | src/App.js:132-135 | the code-unit distance is 0 exactly when the normalized guess equals the normalized title |
| Grading.CloseGuessesAccepted | src/App.js:135 | the title itself, and any guess one edit away after normalization, is accepted |
| Grading.ToleranceOneIffShort | src/App.js:135 | the tolerance is exactly 1 for normalized titles of at most 13 code units, and larger for longer ones |
| Grading.ToleranceMonotone | src/App.js:135 | a longer title never tolerates fewer edits |
| Grading.Grade | src/App.js:132-135 | grading with the table-filling method agrees with the acceptance rule, and an exact normalized match passes |
| QuizState.Init | src/App.js:68-83 | the first render is idle with no quiz or request, global random mode, year 2017, month 2 |
| QuizState.BeginLoad | src/App.js:92-97 | a begin step enters loading, clears the quiz, feedback, error and both hints, and keeps the settings |
| QuizState.StartOrNext | src/App.js:90-109 | ignored while loading; otherwise clears the round and requests a random quiz, or the selected year and month |
| QuizState.LoadByCode | src/App.js:111-128 | ignored while loading or when the code trims to empty; otherwise clears the round and requests the trimmed code |
| QuizState.LoadSucceeded | src/App.js:99-104 | a successful request stores its parsed body as the quiz, even a `null` one, and ends in playing, touching nothing else |
| QuizState.LoadFailed | src/App.js:105-108 | a failed request ends in idle with the loader's own error message |
| QuizState.Check | src/App.js:130-143 | without a quiz nothing changes; otherwise the status is correct exactly when the guess is accepted (with the answer as feedback), else playing with the retry message; only the status and feedback change |
| QuizState.GiveUp | src/App.js:145-149 | without a quiz nothing changes; otherwise giveup with the answer revealed; only the status and feedback change |
| QuizState.EditGuess | src/App.js:340-343 | typing a guess stores it and clears the feedback, nothing else |
| QuizState.PrevYear | src/App.js:211 | the left arrow goes back one year but never below 2000 |
| QuizState.NextYear | src/App.js:221 | the right arrow goes forward one year but never above 2023 |
| QuizState.Enabled | src/App.js:206-395 | the `disabled` attributes and the month-mode-only controls, both directions: an event is disabled exactly when one of these holds. While loading neither loader, check, give-up nor the guess input fires; without a quiz neither check, give-up, the hints nor the guess input fires; in random mode the year and month controls are absent; a request settles only while one is in flight |
| QuizState.Step | src/App.js:161-395 | one user action or settling request: the handlers above, plus the hint buttons, month buttons, mode toggle, furigana toggle and code input, each setting one field (stated by the setter lemmas below); a disabled event changes nothing, the screen invariant is kept, and the year stays in 2000..2023 |
| QuizState.GenreHintShows | src/App.js:264-266 | with a quiz on screen, the genre hint button shows the genre hint and changes nothing else |
| QuizState.ArtistHintShows | src/App.js:279-281 | with a quiz on screen, the artist hint button shows the artist hint and changes nothing else |
| QuizState.TypeGuessEdits | src/App.js:340-346 | with a quiz on screen and nothing loading, typing stores the guess and clears the feedback |
| QuizState.TypeCodeStores | src/App.js:390 | typing a match code stores it and changes nothing else |
| QuizState.YearArrowsMove | src/App.js:206-221 | in month mode the arrows move the year by one, clamped to 2000..2023 |
| QuizState.MonthButtonSelects | src/App.js:206-233 | in month mode a month button selects that month |
| QuizState.ModeButtonsSwitch | src/App.js:183-194 | the two mode buttons select global random or month mode |
| QuizState.FuriganaToggles | src/App.js:161 | the furigana button flips the furigana flag |
| QuizState.InitValid | src/App.js:68-83 | the first render satisfies the screen invariant |
| QuizState.StepPreservesValid | src/App.js:90-149 | every enabled handler and every settling request keeps the screen invariant |
| QuizState.RunPreservesValid | src/App.js:90-149 | any sequence of events keeps the screen invariant |
| QuizState.ReachableStatesValid | src/App.js:69-70 | from the first render, the year stays in 2000..2023 and the month in 1..12 under every control, and the invariant holds |
| QuizState.LoadersIgnoredWhileLoading | src/App.js:91 | while loading, both `startOrNext` and `loadByCode` are no-ops |
| QuizState.LoadSettles | src/App.js:99-108 | a settled request ends a load in playing with its data (possibly none), or in idle with an error and no quiz |
| QuizState.NoQuizNoGrading | src/App.js:130-149 | with no current quiz, `check` and `giveUp` change nothing |
| QuizState.CheckOutcome | src/App.js:130-143 | with a quiz, `check` ends in correct exactly when the guess is accepted, and in playing otherwise |
| QuizState.GiveUpOutcome | src/App.js:145-149 | with a quiz, `giveUp` ends in giveup and reveals the title and artist |
| QuizState.HintsClearedOnlyByNewRound | src/App.js:90-118 | a shown hint is hidden again only by a loader starting a new round |

## Left out

- `API_BASE` and the fetch wrappers `getByMonth`, `getRandom` and `getByCode` are network I/O. The model records the request a loader would send. Its outcome arrives as a `RequestSucceeded(data)` or `RequestFailed` event.
- Rendering is left out: JSX, CSS, the ruby/lyrics display and the quiz's metadata line. It enters the model only as the `disabled` attributes and the month-mode controls in `Enabled`. The furigana toggle is kept as a flag.
- React's batching and scheduling are left out. Each handler is one atomic update, and `pending` stands for the closure awaiting the request.
- Unicode `toLowerCase` and the `\p{L}` / `\p{N}` classes are parameters (`CharModel`), because they cannot be reproduced here.
- TitleNormalization.Lowercase: which case mapping the browser applies (the UnicodeData and SpecialCasing tables, including the Final_Sigma context rule) is not modelled. The parameter sees the whole string, so such mappings are expressible, but no property depends on a particular one.
- QuizState.LoadSucceeded: a parsed body that is `null` or another falsy value is modelled as `None`. A body without a `title` field is a quiz whose title is `""`. A `title` that is `null` or not a string is not modelled: on it `normalize` throws at `toLowerCase` and `check` changes nothing, and `Quiz.title` is a string.
- The `i` flag on the word passes is modelled as ASCII case folding. This is exact for the non-Unicode flag against lower-case ASCII words.
- Grading.Tolerance: computes `floor(0.15 * len)` exactly as `(15 * len) / 100`. JavaScript multiplies by the double nearest 0.15. For lengths below 2^50 the rounding error is under half an ulp of the product, so the floor agrees.
- Feedback and error texts are constructors of `Feedback` and `LoadError`, not the Korean strings themselves.
- A quiz keeps only title, artist, genre and code. The other fields are only displayed. A missing title is modelled as the empty string, which is what the default parameter of `normalize` gives.
- The triangle inequality of edit distance is not proved. Grading never combines two distances.

=== FILE: edit_distance.dfy ===
/** Levenshtein edit distance: a recursive reference definition, the
    dynamic-programming table the quiz fills in, and the metric facts the
    acceptance test of a guess relies on. */
module EditDistance {

  function Min(x: nat, y: nat): nat {
    if x <= y then x else y
  }

  function Max(x: nat, y: nat): nat {
    if x <= y then y else x
  }

  /** Substitution cost of the last elements: 0 when they are equal, else 1. */
  function Cost<T(==)>(x: T, y: T): nat {
    if x == y then 0 else 1
  }

  /** The edit distance of `a` and `b` (insertions, deletions and
      substitutions, each of cost 1), by recursion on the last elements:
      the same recurrence the table below is filled with. */
  function Dist<T(==)>(a: seq<T>, b: seq<T>): nat
    decreases |a| + |b|
  {
    if |a| == 0 then |b|
    else if |b| == 0 then |a|
    else
      var a', b' := a[..|a| - 1], b[..|b| - 1];
      Min(Min(Dist(a', b) + 1, Dist(a, b') + 1), Dist(a', b') + Cost(a[|a| - 1], b[|b| - 1]))
  }

  /** One cell of the table, stated on prefixes. */
  lemma DistStep<T>(a: seq<T>, b: seq<T>, i: nat, j: nat)
    requires 1 <= i <= |a| && 1 <= j <= |b|
    ensures Dist(a[..i], b[..j])
         == Min(Min(Dist(a[..i - 1], b[..j]) + 1, Dist(a[..i], b[..j - 1]) + 1),
                Dist(a[..i - 1], b[..j - 1]) + Cost(a[i - 1], b[j - 1]))
  {
    assert a[..i][..i - 1] == a[..i - 1];
    assert b[..j][..j - 1] == b[..j - 1];
  }

  /** The cells of rows `0..rows-1` of `dp` hold the distances of the
      corresponding prefixes. */
  ghost predicate RowsFilled<T>(a: seq<T>, b: seq<T>, dp: array2<nat>, rows: nat)
    reads dp
    requires dp.Length0 == |a| + 1 && dp.Length1 == |b| + 1 && rows <= |a| + 1
  {
    forall x, y {:trigger dp[x, y]} :: 0 <= x < rows && 0 <= y <= |b| ==> dp[x, y] == Dist(a[..x], b[..y])
  }

  /** The quiz's `levenshtein`: an (m+1) x (n+1) table whose first column
      and first row hold the distances to the empty prefix, every other cell
      the minimum of deleting, inserting or substituting. */
  method Levenshtein<T(==)>(a: seq<T>, b: seq<T>) returns (d: nat)
    ensures d == Dist(a, b)
    ensures |b| == 0 ==> d == |a|
    ensures |a| == 0 ==> d == |b|
  {
    var m, n := |a|, |b|;
    var dp := new nat[m + 1, n + 1]((_, _) => 0);
    var i := 0;
    while i <= m
      invariant 0 <= i <= m + 1
      invariant forall x :: 0 <= x < i ==> dp[x, 0] == x
    {
      dp[i, 0] := i;
      i := i + 1;
    }
    var j := 0;
    while j <= n
      invariant 0 <= j <= n + 1
      invariant forall x :: 0 <= x <= m ==> dp[x, 0] == x
      invariant forall y :: 0 <= y < j ==> dp[0, y] == y
    {
      dp[0, j] := j;
      j := j + 1;
    }
    i := 1;
    while i <= m
      invariant 1 <= i <= m + 1
      invariant RowsFilled(a, b, dp, i)
      invariant forall x :: i <= x <= m ==> dp[x, 0] == x
    {
      FillRow(a, b, dp, i);
      i := i + 1;
    }
    d := dp[m, n];
    assert a[..m] == a && b[..n] == b;
  }

  /** The inner loop of `levenshtein`: fills row `i` from row `i - 1`. */
  method FillRow<T(==)>(a: seq<T>, b: seq<T>, dp: array2<nat>, i: nat)
    requires dp.Length0 == |a| + 1 && dp.Length1 == |b| + 1 && 1 <= i <= |a|
    requires RowsFilled(a, b, dp, i)
    requires dp[i, 0] == i
    modifies dp
    ensures RowsFilled(a, b, dp, i + 1)
    ensures forall x :: 0 <= x < dp.Length0 && x != i ==> dp[x, 0] == old(dp[x, 0])
  {
    var n := |b|;
    var j := 1;
    while j <= n
      invariant 1 <= j <= n + 1
      invariant RowsFilled(a, b, dp, i)
      invariant forall x :: 0 <= x < dp.Length0 && x != i ==> dp[x, 0] == old(dp[x, 0])
      invariant dp[i, 0] == i
      invariant forall y {:trigger dp[i, y]} :: 1 <= y < j ==> dp[i, y] == Dist(a[..i], b[..y])
    {
      DistStep(a, b, i, j);
      var cost := if a[i - 1] == b[j - 1] then 0 else 1;
      dp[i, j] := Min(Min(dp[i - 1, j] + 1, dp[i, j - 1] + 1), dp[i - 1, j - 1] + cost);
      j := j + 1;
    }
  }

  lemma {:induction false} DistSelf<T>(a: seq<T>)
    ensures Dist(a, a) == 0
    decreases |a|
  {
    if |a| > 0 {
      DistSelf(a[..|a| - 1]);
    }
  }

  /** The distance is at least the difference of the lengths. */
  lemma {:induction false} DistLowerBound<T>(a: seq<T>, b: seq<T>)
    ensures |a| - |b| <= Dist(a, b)
    ensures |b| - |a| <= Dist(a, b)
    decreases |a| + |b|
  {
    if |a| > 0 && |b| > 0 {
      var a', b' := a[..|a| - 1], b[..|b| - 1];
      DistLowerBound(a', b);
      DistLowerBound(a, b');
      DistLowerBound(a', b');
    }
  }

  /** The distance is at most the longer length. */
  lemma {:induction false} DistUpperBound<T>(a: seq<T>, b: seq<T>)
    ensures Dist(a, b) <= Max(|a|, |b|)
    decreases |a| + |b|
  {
    if |a| > 0 && |b| > 0 {
      DistUpperBound(a[..|a| - 1], b[..|b| - 1]);
    }
  }

  lemma {:induction false} DistZeroOnlyIfEqual<T>(a: seq<T>, b: seq<T>)
    requires Dist(a, b) == 0
    ensures a == b
    decreases |a| + |b|
  {
    DistLowerBound(a, b);
    if |a| > 0 {
      var a', b' := a[..|a| - 1], b[..|b| - 1];
      DistZeroOnlyIfEqual(a', b');
      assert a == a' + [a[|a| - 1]];
      assert b == b' + [b[|b| - 1]];
    }
  }

  /** Distance 0 exactly for equal sequences. */
  lemma DistZeroIffEqual<T>(a: seq<T>, b: seq<T>)
    ensures Dist(a, b) == 0 <==> a == b
  {
    if Dist(a, b) == 0 {
      DistZeroOnlyIfEqual(a, b);
    }
    if a == b {
      DistSelf(a);
    }
  }

  lemma {:induction false} DistSymmetric<T>(a: seq<T>, b: seq<T>)
    ensures Dist(a, b) == Dist(b, a)
    decreases |a| + |b|
  {
    if |a| > 0 && |b| > 0 {
      var a', b' := a[..|a| - 1], b[..|b| - 1];
      DistSymmetric(a', b);
      DistSymmetric(a, b');
      DistSymmetric(a', b');
    }
  }
}

=== FILE: grading.dfy ===
/** The acceptance test inside the quiz's `check`: a guess is right when
    its normalized form equals the normalized title, or is within an edit
    distance of 15% of the title's length (at least 1). Lengths and
    distances are taken over UTF-16 code units, as JavaScript measures
    them. */
module Grading {
  import opened EditDistance
  import opened Utf16
  import opened TitleNormalization

  /** `Math.max(1, Math.floor(len * 0.15))`, with 0.15 taken exactly. */
  function Tolerance(len: nat): (t: nat)
    ensures t >= 1
    ensures t == 1 || 100 * t <= 15 * len
    ensures 15 * len < 100 * (t + 1)
  {
    var f := (15 * len) / 100;
    if f < 1 then 1 else f
  }

  /** The `ok` of `check`, for the current guess and quiz title: accepted
      exactly when the code-unit distance of the normalized strings is
      within the tolerance, and always on an exact normalized match. */
  function Accepts(cm: CharModel, guess: string, title: string): (ok: bool)
    ensures Normalize(cm, guess) == Normalize(cm, title) ==> ok
    ensures ok <==> Dist(Encode(Normalize(cm, guess)), Encode(Normalize(cm, title)))
                    <= Tolerance(|Encode(Normalize(cm, title))|)
  {
    var a, b := Normalize(cm, guess), Normalize(cm, title);
    DistSelf(Encode(a));
    a == b || Dist(Encode(a), Encode(b)) <= Tolerance(|Encode(b)|)
  }

  /** The equality disjunct adds nothing: a guess is accepted exactly when
      its distance to the normalized title is within the tolerance. */
  lemma AcceptsIffWithinTolerance(cm: CharModel, guess: string, title: string)
    ensures Accepts(cm, guess, title)
        <==> Dist(Encode(Normalize(cm, guess)), Encode(Normalize(cm, title)))
             <= Tolerance(|Encode(Normalize(cm, title))|)
  {
    var a, b := Normalize(cm, guess), Normalize(cm, title);
    if a == b {
      DistSelf(Encode(a));
    }
  }

  /** Distance 0 on the code units is the same as normalized equality. */
  lemma DistanceZeroIffSameNormalized(cm: CharModel, guess: string, title: string)
    ensures Dist(Encode(Normalize(cm, guess)), Encode(Normalize(cm, title))) == 0
        <==> Normalize(cm, guess) == Normalize(cm, title)
  {
    var a, b := Normalize(cm, guess), Normalize(cm, title);
    DistZeroIffEqual(Encode(a), Encode(b));
    EncodeInjective(a, b);
  }

  /** An exact normalized match, and in particular the title itself, is
      always accepted; so is any guess one edit away. */
  lemma CloseGuessesAccepted(cm: CharModel, guess: string, title: string)
    ensures Accepts(cm, title, title)
    ensures Dist(Encode(Normalize(cm, guess)), Encode(Normalize(cm, title))) <= 1
        ==> Accepts(cm, guess, title)
  {
  }

  /** Titles of up to 13 code units tolerate exactly one edit; longer
      titles tolerate more. */
  lemma ToleranceOneIffShort(len: nat)
    ensures Tolerance(len) == 1 <==> len <= 13
  {
    if len >= 14 {
      assert 15 * len >= 210;
    }
  }

  /** A longer title never tolerates fewer edits. */
  lemma ToleranceMonotone(len: nat, len': nat)
    requires len <= len'
    ensures Tolerance(len) <= Tolerance(len')
  {
  }

  /** `check`'s grading as it runs: normalize both strings, fill the edit
      distance table, compare with the tolerance. */
  method Grade(cm: CharModel, guess: string, title: string) returns (ok: bool)
    ensures ok <==> Accepts(cm, guess, title)
    ensures Normalize(cm, guess) == Normalize(cm, title) ==> ok
  {
    var a := Normalize(cm, guess);
    var b := Normalize(cm, title);
    var dist := Levenshtein(Encode(a), Encode(b));
    ok := a == b || dist <= Tolerance(|Encode(b)|);
  }
}

=== FILE: js_text.dfy ===
/** The pieces of JavaScript's string library the quiz relies on: the `\s`
    character class, `String.prototype.trim`, the ASCII case-insensitive
    comparison of a non-Unicode `/i` regular expression, and character
    filtering (`replace(/[^...]/g, "")`). */
module JsText {

  /** `\s`: ECMAScript's WhiteSpace and LineTerminator code points (tab,
      vertical tab, form feed, the space separators, byte order mark, line
      feed, carriage return, line and paragraph separators). */
  predicate IsJsWhitespace(c: char) {
    c == '\t' || c == '\n' || c == '\U{000B}' || c == '\U{000C}' || c == '\r'
    || c == ' ' || c == '\U{00A0}' || c == '\U{1680}'
    || ('\U{2000}' <= c <= '\U{200A}')
    || c == '\U{2028}' || c == '\U{2029}' || c == '\U{202F}' || c == '\U{205F}'
    || c == '\U{3000}' || c == '\U{FEFF}'
  }

  /** `c` is the lower-case ASCII letter `t` or its upper-case form. */
  predicate CaseVariant(c: char, t: char) {
    'a' <= t <= 'z' && (c == t || c as int + 32 == t as int)
  }

  /** Case folding of a non-Unicode `/i` pattern against a lower-case ASCII
      letter: only that letter and its upper-case form match it. */
  function AsciiFold(c: char): (r: char)
    ensures forall t: char :: 'a' <= t <= 'z' ==> (r == t <==> CaseVariant(c, t))
  {
    if 'A' <= c <= 'Z' then (c as int + 32) as char else c
  }

  /** The number of positions of `s` whose character satisfies `p`. */
  function CountWhere(p: char -> bool, s: string): nat {
    if |s| == 0 then 0 else (if p(s[0]) then 1 else 0) + CountWhere(p, s[1..])
  }

  /** The characters of `s` satisfying `p`, in order: a subsequence that
      keeps one character per satisfying position (`FilterUnique` shows
      this determines it). */
  function Filter(p: char -> bool, s: string): (r: string)
    ensures |r| <= |s|
    ensures |r| == CountWhere(p, s)
    ensures forall i :: 0 <= i < |r| ==> p(r[i])
    ensures forall c :: c in r <==> c in s && p(c)
    ensures IsSubsequence(r, s)
    ensures (forall i :: 0 <= i < |s| ==> p(s[i])) ==> r == s
  {
    if |s| == 0 then []
    else
      assert s == [s[0]] + s[1..];
      if p(s[0]) then [s[0]] + Filter(p, s[1..])
      else Filter(p, s[1..])
  }

  /** `r` is obtained from `s` by deleting characters. */
  ghost predicate IsSubsequence<T>(r: seq<T>, s: seq<T>)
    decreases |s|
  {
    |r| == 0 || (|s| > 0 && ((r[0] == s[0] && IsSubsequence(r[1..], s[1..])) || IsSubsequence(r, s[1..])))
  }

  lemma {:induction false} SubsequenceMembers<T>(r: seq<T>, s: seq<T>)
    requires IsSubsequence(r, s)
    ensures |r| <= |s|
    ensures forall x :: x in r ==> x in s
    decreases |s|
  {
    if |r| > 0 {
      if r[0] == s[0] && IsSubsequence(r[1..], s[1..]) {
        SubsequenceMembers(r[1..], s[1..]);
        assert r == [r[0]] + r[1..];
      } else {
        SubsequenceMembers(r, s[1..]);
      }
    }
  }

  lemma {:induction false} SubsequenceOfSuffix<T>(r: seq<T>, s: seq<T>, k: nat)
    requires k <= |s| && IsSubsequence(r, s[k..])
    ensures IsSubsequence(r, s)
    decreases k
  {
    if k > 0 {
      assert s[1..][k - 1..] == s[k..];
      SubsequenceOfSuffix(r, s[1..], k - 1);
    }
  }

  lemma {:induction false} SubsequenceTransitive<T>(r: seq<T>, s: seq<T>, u: seq<T>)
    requires IsSubsequence(r, s) && IsSubsequence(s, u)
    ensures IsSubsequence(r, u)
    decreases |u|
  {
    if |r| > 0 {
      assert |s| > 0 && |u| > 0;
      if s[0] == u[0] && IsSubsequence(s[1..], u[1..]) {
        if r[0] == s[0] && IsSubsequence(r[1..], s[1..]) {
          SubsequenceTransitive(r[1..], s[1..], u[1..]);
        } else {
          SubsequenceTransitive(r, s[1..], u[1..]);
        }
      } else {
        SubsequenceTransitive(r, s, u[1..]);
      }
    }
  }

  /** A subsequence of `s` whose characters all satisfy `p` is no longer
      than the number of positions of `s` satisfying `p`. */
  lemma {:induction false} SubsequenceCountBound(p: char -> bool, t: string, s: string)
    requires IsSubsequence(t, s)
    requires forall i :: 0 <= i < |t| ==> p(t[i])
    ensures |t| <= CountWhere(p, s)
    decreases |s|
  {
    if |t| > 0 {
      if t[0] == s[0] && IsSubsequence(t[1..], s[1..]) {
        SubsequenceCountBound(p, t[1..], s[1..]);
      } else {
        SubsequenceCountBound(p, t, s[1..]);
      }
    }
  }

  /** `Filter` is the only subsequence of `s` made of characters satisfying
      `p` that keeps one character per satisfying position: no character
      is dropped, repeated ones included. */
  lemma {:induction false} FilterUnique(p: char -> bool, t: string, s: string)
    requires IsSubsequence(t, s)
    requires forall i :: 0 <= i < |t| ==> p(t[i])
    requires |t| == CountWhere(p, s)
    ensures t == Filter(p, s)
    decreases |s|
  {
    if |s| > 0 && |t| > 0 {
      if t[0] == s[0] && IsSubsequence(t[1..], s[1..]) {
        FilterUnique(p, t[1..], s[1..]);
        assert t == [t[0]] + t[1..];
      } else {
        SubsequenceCountBound(p, t, s[1..]);
        FilterUnique(p, t, s[1..]);
      }
    }
  }

  /** Every character satisfying `p` survives `Filter` as often as it
      occurs in `s`; every other character is gone. */
  lemma {:induction false} FilterMultiset(p: char -> bool, s: string)
    ensures forall c :: multiset(Filter(p, s))[c] == (if p(c) then multiset(s)[c] else 0)
    decreases |s|
  {
    if |s| > 0 {
      FilterMultiset(p, s[1..]);
      assert s == [s[0]] + s[1..];
    }
  }

  /** Number of whitespace characters at the start of `s`. */
  function LeadingSpace(s: string): (k: nat)
    ensures k <= |s|
    ensures forall i :: 0 <= i < k ==> IsJsWhitespace(s[i])
    ensures k < |s| ==> !IsJsWhitespace(s[k])
  {
    if |s| > 0 && IsJsWhitespace(s[0]) then 1 + LeadingSpace(s[1..]) else 0
  }

  /** Number of whitespace characters at the end of `s`. */
  function TrailingSpace(s: string): (k: nat)
    ensures k <= |s|
    ensures forall i :: |s| - k <= i < |s| ==> IsJsWhitespace(s[i])
    ensures k < |s| ==> !IsJsWhitespace(s[|s| - k - 1])
  {
    if |s| > 0 && IsJsWhitespace(s[|s| - 1]) then 1 + TrailingSpace(s[..|s| - 1]) else 0
  }

  predicate AllSpace(t: string) {
    forall i :: 0 <= i < |t| ==> IsJsWhitespace(t[i])
  }

  /** `String.prototype.trim`: `s` without its leading and trailing
      whitespace. */
  function Trim(s: string): (r: string)
    ensures exists pre, post :: AllSpace(pre) && AllSpace(post) && s == pre + r + post
    ensures |r| > 0 ==> !IsJsWhitespace(r[0]) && !IsJsWhitespace(r[|r| - 1])
    ensures |r| == 0 <==> AllSpace(s)
  {
    var t := s[LeadingSpace(s)..];
    var r := t[..|t| - TrailingSpace(t)];
    var pre, post := s[..LeadingSpace(s)], t[|t| - TrailingSpace(t)..];
    assert AllSpace(pre) && AllSpace(post) && s == pre + r + post;
    r
  }
}

=== FILE: normalize.dfy ===
/** The quiz's `normalize` (src/App.js): lower-case, drop whitespace, keep
    only letters and digits, then three left-to-right global deletions of
    credit words ("feat", "prod by", "remix", "inst version"). */
module TitleNormalization {
  import opened Wrappers
  import opened JsText

  /** The two Unicode services JavaScript provides and the model does not
      reproduce. `lower(s, i)` is what `toLowerCase` turns the character at
      position `i` of `s` into: possibly several characters (as for U+0130),
      and depending on the neighbouring characters where Unicode's
      SpecialCasing says so (the Final_Sigma rule: a capital sigma ending a
      word becomes "ς", elsewhere "σ"). `isLetterOrDigit` is membership in
      `\p{L}` or `\p{N}`. */
  datatype CharModel = CharModel(lower: (string, nat) -> string, isLetterOrDigit: char -> bool)

  /** `s.toLowerCase()`: the lower case of every position of `s`, in
      order. */
  function Lowercase(cm: CharModel, s: string): (r: string)
    ensures (forall i :: 0 <= i < |s| ==> |cm.lower(s, i)| == 1) ==> |r| == |s|
    ensures (forall i :: 0 <= i < |s| ==> cm.lower(s, i) == [s[i]]) ==> r == s
  {
    LowercaseFrom(cm, s, 0)
  }

  /** The lower case of positions `k..|s|-1` of `s`. */
  function LowercaseFrom(cm: CharModel, s: string, k: nat): (r: string)
    requires k <= |s|
    ensures (forall i :: k <= i < |s| ==> |cm.lower(s, i)| == 1) ==> |r| == |s| - k
    ensures (forall i :: k <= i < |s| ==> cm.lower(s, i) == [s[i]]) ==> r == s[k..]
    decreases |s| - k
  {
    if k == |s| then []
    else
      assert s[k..] == [s[k]] + s[k + 1..];
      cm.lower(s, k) + LowercaseFrom(cm, s, k + 1)
  }

  predicate NotWhitespace(c: char) {
    !IsJsWhitespace(c)
  }

  /** `.replace(/\s+/g, "")` */
  function RemoveWhitespace(s: string): (r: string)
    ensures forall i :: 0 <= i < |r| ==> !IsJsWhitespace(r[i])
    ensures forall c :: c in r <==> c in s && !IsJsWhitespace(c)
    ensures |r| == CountWhere(NotWhitespace, s)
    ensures IsSubsequence(r, s)
    ensures (forall i :: 0 <= i < |s| ==> !IsJsWhitespace(s[i])) ==> r == s
  {
    Filter(NotWhitespace, s)
  }

  /** `.replace(/[^\p{L}\p{N}]/gu, "")` */
  function KeepLettersAndDigits(cm: CharModel, s: string): (r: string)
    ensures forall i :: 0 <= i < |r| ==> cm.isLetterOrDigit(r[i])
    ensures forall c :: c in r <==> c in s && cm.isLetterOrDigit(c)
    ensures |r| == CountWhere(cm.isLetterOrDigit, s)
    ensures IsSubsequence(r, s)
    ensures (forall i :: 0 <= i < |s| ==> cm.isLetterOrDigit(s[i])) ==> r == s
  {
    Filter(cm.isLetterOrDigit, s)
  }

  /** `t` (a lower-case ASCII word) matches the start of `s` under the `/i`
      flag. */
  predicate MatchesAt(t: string, s: string) {
    |t| <= |s| && forall i :: 0 <= i < |t| ==> AsciiFold(s[i]) == t[i]
  }

  predicate NonEmptyWords(alts: seq<string>) {
    forall k :: 0 <= k < |alts| ==> |alts[k]| > 0
  }

  /** The alternative a regular expression `w1|w2|...` matches at the start
      of `s`: the first one, in order, that matches. */
  function FirstMatch(alts: seq<string>, s: string): (r: Option<nat>)
    ensures r.Some? ==> r.value < |alts| && MatchesAt(alts[r.value], s)
    ensures r.Some? ==> forall k :: 0 <= k < r.value ==> !MatchesAt(alts[k], s)
    ensures r.None? <==> forall k :: 0 <= k < |alts| ==> !MatchesAt(alts[k], s)
  {
    if |alts| == 0 then None
    else if MatchesAt(alts[0], s) then Some(0)
    else match FirstMatch(alts[1..], s)
      case None => None
      case Some(k) => Some(k + 1)
  }

  /** No alternative matches at any position of `s`. */
  predicate NoMatchAnywhere(alts: seq<string>, s: string) {
    forall i :: 0 <= i < |s| ==> FirstMatch(alts, s[i..]).None?
  }

  /** `.replace(/w1|w2|.../gi, "")`: scan left to right; where an
      alternative matches, delete it and continue after it, otherwise keep
      the character and move one on. */
  function DeleteWords(alts: seq<string>, s: string): (r: string)
    requires NonEmptyWords(alts)
    ensures IsSubsequence(r, s)
    decreases |s|
  {
    if |s| == 0 then []
    else match FirstMatch(alts, s)
      case Some(k) =>
        var rest := DeleteWords(alts, s[|alts[k]|..]);
        SubsequenceOfSuffix(rest, s, |alts[k]|);
        rest
      case None =>
        var rest := DeleteWords(alts, s[1..]);
        assert s == [s[0]] + s[1..];
        [s[0]] + rest
  }

  /** The deletion pass leaves `s` unchanged exactly when no alternative
      matches anywhere in it. */
  lemma {:induction false} DeleteWordsUnchangedIff(alts: seq<string>, s: string)
    requires NonEmptyWords(alts)
    ensures DeleteWords(alts, s) == s <==> NoMatchAnywhere(alts, s)
    decreases |s|
  {
    if |s| > 0 {
      var r := DeleteWords(alts, s);
      match FirstMatch(alts, s)
      case Some(k) =>
        SubsequenceMembers(r, s[|alts[k]|..]);
        assert |r| < |s|;
        assert !NoMatchAnywhere(alts, s) by {
          assert s[0..] == s;
        }
      case None =>
        DeleteWordsUnchangedIff(alts, s[1..]);
        assert r == [s[0]] + DeleteWords(alts, s[1..]);
        assert forall i :: 1 <= i < |s| ==> s[i..] == s[1..][i - 1..];
        assert s[0..] == s;
        assert s == [s[0]] + s[1..];
    }
  }

  /** `feat\.?|featuring|ft\.?` once dots are gone. "featuring" can never
      match: "feat" is tried first at the same position. */
  const FeatWords: seq<string> := ["feat", "featuring", "ft"]

  /** `prod(?:uced)?\s*by|prod\.?` once whitespace and dots are gone; the
      optional group is greedy, so "producedby" is tried before "prodby". */
  const ProdWords: seq<string> := ["producedby", "prodby", "prod"]

  /** `remix|inst(?:\.|)\s*version?` once whitespace and dots are gone; the
      optional "n" is greedy. */
  const RemixWords: seq<string> := ["remix", "instversion", "instversio"]

  /** The three character passes of `normalize`: lower case, no `\s`, only
      `\p{L}` and `\p{N}`. */
  function Clean(cm: CharModel, s: string): (r: string)
    ensures forall i :: 0 <= i < |r| ==> cm.isLetterOrDigit(r[i]) && !IsJsWhitespace(r[i])
  {
    var t := RemoveWhitespace(Lowercase(cm, s));
    var r := KeepLettersAndDigits(cm, t);
    assert forall i :: 0 <= i < |r| ==> r[i] in t;
    r
  }

  /** The three word passes of `normalize`, in source order; together they
      only delete characters. */
  function WordPasses(s: string): (r: string)
    ensures IsSubsequence(r, s)
  {
    var r1 := DeleteWords(FeatWords, s);
    var r2 := DeleteWords(ProdWords, r1);
    var r := DeleteWords(RemixWords, r2);
    SubsequenceTransitive(r, r2, r1);
    SubsequenceTransitive(r, r1, s);
    r
  }

  /** The quiz's `normalize`. */
  function Normalize(cm: CharModel, s: string): (r: string)
    ensures forall i :: 0 <= i < |r| ==> cm.isLetterOrDigit(r[i]) && !IsJsWhitespace(r[i])
  {
    var c := Clean(cm, s);
    var r := WordPasses(c);
    SubsequenceMembers(r, c);
    r
  }
}

module NormalizeExamples {
  import opened Wrappers
  import opened JsText
  import opened TitleNormalization

  /** One scan step where no word starts with the first character. */
  lemma KeepFirst(alts: seq<string>, s: string)
    requires NonEmptyWords(alts) && |s| > 0
    requires forall k :: 0 <= k < |alts| ==> alts[k][0] != AsciiFold(s[0])
    ensures DeleteWords(alts, s) == [s[0]] + DeleteWords(alts, s[1..])
  {
    assert FirstMatch(alts, s).None?;
  }

  /** One scan step where word `k` is the first alternative that matches. */
  lemma DropWord(alts: seq<string>, s: string, k: nat)
    requires NonEmptyWords(alts) && k < |alts| && |s| > 0
    requires MatchesAt(alts[k], s)
    requires forall j :: 0 <= j < k ==> !MatchesAt(alts[j], s)
    ensures DeleteWords(alts, s) == DeleteWords(alts, s[|alts[k]|..])
  {
    assert FirstMatch(alts, s) == Some(k);
  }

  /** A string in which no word's first letter occurs is left alone. */
  lemma {:induction false} NoInitialsKept(alts: seq<string>, s: string)
    requires NonEmptyWords(alts)
    requires forall i, k :: 0 <= i < |s| && 0 <= k < |alts| ==> alts[k][0] != AsciiFold(s[i])
    ensures DeleteWords(alts, s) == s
    decreases |s|
  {
    if |s| > 0 {
      KeepFirst(alts, s);
      NoInitialsKept(alts, s[1..]);
      assert s == [s[0]] + s[1..];
    }
  }

  /** "featuring" is never what the first pass deletes: wherever it
      matches, "feat" matches first. */
  lemma FeaturingNeverMatches(s: string)
    ensures FirstMatch(FeatWords, s) != Some(1)
  {
    if MatchesAt(FeatWords[1], s) {
      assert MatchesAt(FeatWords[0], s);
    }
  }

  /** "prod" not followed by "by" (as in "produced") is deleted on its own. */
  lemma ProdWithoutByIsDeleted(s: string)
    requires MatchesAt("prod", s)
    requires !MatchesAt("producedby", s) && !MatchesAt("prodby", s)
    ensures FirstMatch(ProdWords, s) == Some(2)
  {
    assert ProdWords[0] == "producedby" && ProdWords[1] == "prodby" && ProdWords[2] == "prod";
  }

  lemma FeatMatchesFirst()
    ensures DeleteWords(FeatWords, "featuring") == DeleteWords(FeatWords, "uring")
  {
    var s := "featuring";
    assert MatchesAt("feat", s);
    DropWord(FeatWords, s, 0);
    assert s[4..] == "uring";
  }

  lemma UringKept()
    ensures DeleteWords(FeatWords, "uring") == "uring"
  {
    NoInitialsKept(FeatWords, "uring");
  }

  /** "featuring" loses only "feat". */
  lemma FeaturingLosesOnlyFeat()
    ensures DeleteWords(FeatWords, "featuring") == "uring"
  {
    FeatMatchesFirst();
    UringKept();
  }

  /** A lower case for capital alpha and sigma that follows the Final_Sigma
      rule in its simplest form: a sigma after another character and at the
      end of the text becomes "ς", any other sigma "σ". */
  function SigmaLower(s: string, i: nat): string {
    if i >= |s| then []
    else if s[i] == 'Σ' then (if 0 < i && i + 1 == |s| then "ς" else "σ")
    else if s[i] == 'Α' then "α"
    else [s[i]]
  }

  /** The case mapping is a parameter that sees the whole text, so a
      context-dependent rule such as Final_Sigma is one of its instances. */
  lemma FinalSigmaExpressible()
    ensures Lowercase(CharModel(SigmaLower, c => true), "ΑΣ") == "ας"
    ensures Lowercase(CharModel(SigmaLower, c => true), "ΣΑ") == "σα"
  {
    var cm := CharModel(SigmaLower, c => true);
    assert LowercaseFrom(cm, "ΑΣ", 2) == [];
    assert LowercaseFrom(cm, "ΣΑ", 2) == [];
  }

  /** Lower-case ASCII letters are their own lower case, wherever they
      stand, and are letters. */
  ghost predicate FixesLowerAscii(cm: CharModel) {
    && (forall s: string, i {:trigger cm.lower(s, i)} :: 0 <= i < |s| && 'a' <= s[i] <= 'z' ==> cm.lower(s, i) == [s[i]])
    && (forall c: char :: 'a' <= c <= 'z' ==> cm.isLetterOrDigit(c))
  }

  /** For lower-case ASCII words the character passes change nothing. */
  lemma CleanLowerAscii(cm: CharModel, s: string)
    requires FixesLowerAscii(cm)
    requires forall i :: 0 <= i < |s| ==> 'a' <= s[i] <= 'z'
    ensures Clean(cm, s) == s
  {
    assert forall i :: 0 <= i < |s| ==> cm.lower(s, i) == [s[i]];
    assert Lowercase(cm, s) == s;
    assert forall i :: 0 <= i < |s| ==> NotWhitespace(s[i]);
    assert RemoveWhitespace(s) == s;
    assert forall i :: 0 <= i < |s| ==> cm.isLetterOrDigit(s[i]);
  }

  lemma FfeattFirstPass()
    ensures DeleteWords(FeatWords, "ffeatt") == "ft"
  {
    var s := "ffeatt";
    assert DeleteWords(FeatWords, s) == [s[0]] + DeleteWords(FeatWords, s[1..]) by {
      assert !MatchesAt("feat", s) && !MatchesAt("featuring", s) && !MatchesAt("ft", s);
      assert FirstMatch(FeatWords, s).None?;
    }
    assert s[1..] == "featt";
    FeattFirstPass();
  }

  lemma FeattFirstPass()
    ensures DeleteWords(FeatWords, "featt") == "t"
  {
    var s := "featt";
    assert MatchesAt("feat", s);
    DropWord(FeatWords, s, 0);
    assert s[4..] == "t";
    NoInitialsKept(FeatWords, "t");
  }

  lemma FtFirstPass()
    ensures DeleteWords(FeatWords, "ft") == ""
  {
    var s := "ft";
    assert !MatchesAt("feat", s) && !MatchesAt("featuring", s) && MatchesAt("ft", s);
    DropWord(FeatWords, s, 2);
    assert s[2..] == "";
  }

  lemma FtLaterPasses()
    ensures DeleteWords(RemixWords, DeleteWords(ProdWords, "ft")) == "ft"
  {
    NoInitialsKept(ProdWords, "ft");
    NoInitialsKept(RemixWords, "ft");
  }

  lemma NormalizeFfeatt(cm: CharModel)
    requires FixesLowerAscii(cm)
    ensures Normalize(cm, "ffeatt") == "ft"
  {
    CleanLowerAscii(cm, "ffeatt");
    FfeattFirstPass();
    FtLaterPasses();
  }

  lemma NormalizeFt(cm: CharModel)
    requires FixesLowerAscii(cm)
    ensures Normalize(cm, "ft") == ""
  {
    CleanLowerAscii(cm, "ft");
    FtFirstPass();
    assert DeleteWords(ProdWords, "") == "";
    assert DeleteWords(RemixWords, "") == "";
  }

  /** `normalize` is not idempotent: each pass scans once, so deleting
      "feat" from "ffeatt" leaves a fresh "ft" behind. */
  lemma NormalizeNotIdempotent(cm: CharModel)
    requires FixesLowerAscii(cm)
    ensures Normalize(cm, "ffeatt") == "ft"
    ensures Normalize(cm, "ft") == ""
  {
    NormalizeFfeatt(cm);
    NormalizeFt(cm);
  }
}

=== FILE: quiz.dfy ===
/** The quiz screen's state (src/App.js `App`): the status flag
    idle | loading | playing | correct | giveup, the current quiz, feedback,
    error, hint flags, the chart year and month, and the handlers that
    change them. Each handler is an atomic update; each asynchronous loader
    is a begin step followed, once the request settles, by a success or a
    failure step. */
module QuizState {
  import opened Wrappers
  import opened JsText
  import opened TitleNormalization
  import opened Grading

  datatype Status = Idle | Loading | Playing | Correct | GaveUp

  /** The fields of a quiz the handlers read (lyrics, rank and chart date
      are only displayed). */
  datatype Quiz = Quiz(title: string, artist: string, genre: string, code: string)

  /** The request a loader sends: a random quiz, the quiz of a chart month,
      or the quiz with a match code. */
  datatype Request = RandomQuiz | QuizOfMonth(year: int, month: int) | QuizByCode(code: string)

  /** The feedback line: empty, "정답! title — artist", "오답! 다시
      시도해보세요." or "정답: title — artist". */
  datatype Feedback = NoFeedback | Right(title: string, artist: string) | Wrong | Answer(title: string, artist: string)

  /** The error line: empty, "문제 로드 실패" or "코드로 문제 로드 실패". */
  datatype LoadError = NoError | QuizLoadFailed | CodeLoadFailed

  /** The month buttons: 1 through 12. */
  type MonthOption = k: int | 1 <= k <= 12 witness 1

  const MinYear: int := 2000
  const MaxYear: int := 2023

  /** All state of the screen. `pending` stands for the loader whose request
      is in flight (the closure awaiting it in the program). */
  datatype Model = Model(
    useGlobalRandom: bool,
    year: int,
    month: int,
    cur: Option<Quiz>,
    furiganaOn: bool,
    guess: string,
    feedback: Feedback,
    status: Status,
    error: LoadError,
    hintGenreShown: bool,
    hintArtistShown: bool,
    code: string,
    pending: Option<Request>)

  /** The state on first render. */
  function Init(): (m: Model)
    ensures m.status == Idle && m.cur.None? && m.pending.None?
    ensures m.year == 2017 && m.month == 2 && m.useGlobalRandom
  {
    Model(true, 2017, 2, None, true, "", NoFeedback, Idle, NoError, false, false, "", None)
  }

  /** What a begin step leaves behind: loading, with no quiz, feedback,
      error or hint shown. */
  predicate ClearedForLoad(r: Model) {
    && r.status == Loading
    && r.cur.None?
    && r.feedback == NoFeedback
    && r.error == NoError
    && !r.hintGenreShown
    && !r.hintArtistShown
  }

  /** The user's settings and input are the same in `m` and `r`. */
  predicate SameSettings(m: Model, r: Model) {
    && r.useGlobalRandom == m.useGlobalRandom
    && r.year == m.year
    && r.month == m.month
    && r.furiganaOn == m.furiganaOn
    && r.guess == m.guess
    && r.code == m.code
  }

  function BeginLoad(m: Model, req: Request): (r: Model)
    ensures ClearedForLoad(r) && SameSettings(m, r) && r.pending == Some(req)
  {
    m.(status := Loading, error := NoError, cur := None, feedback := NoFeedback,
       hintGenreShown := false, hintArtistShown := false, pending := Some(req))
  }

  /** `startOrNext`, up to the request: ignored while loading; otherwise
      clears the round and asks for a random quiz or the selected month's. */
  function StartOrNext(m: Model): (r: Model)
    ensures m.status == Loading ==> r == m
    ensures m.status != Loading ==> ClearedForLoad(r) && SameSettings(m, r)
    ensures m.status != Loading && m.useGlobalRandom ==> r.pending == Some(RandomQuiz)
    ensures m.status != Loading && !m.useGlobalRandom ==> r.pending == Some(QuizOfMonth(m.year, m.month))
  {
    if m.status == Loading then m
    else BeginLoad(m, if m.useGlobalRandom then RandomQuiz else QuizOfMonth(m.year, m.month))
  }

  /** `loadByCode`, up to the request: ignored when the trimmed code is
      empty or while loading; otherwise clears the round and asks for the
      quiz with the trimmed code. */
  function LoadByCode(m: Model): (r: Model)
    ensures AllSpace(m.code) || m.status == Loading ==> r == m
    ensures !AllSpace(m.code) && m.status != Loading ==>
      ClearedForLoad(r) && SameSettings(m, r) && r.pending == Some(QuizByCode(Trim(m.code)))
  {
    if |Trim(m.code)| == 0 || m.status == Loading then m
    else BeginLoad(m, QuizByCode(Trim(m.code)))
  }

  /** The request of the pending loader succeeded with `data`: the parsed
      response body, `None` when it is `null` or another falsy value, which
      the page stores all the same. */
  function LoadSucceeded(m: Model, data: Option<Quiz>): (r: Model)
    ensures r.status == Playing && r.cur == data && r.pending.None?
    ensures SameSettings(m, r) && r.feedback == m.feedback && r.error == m.error
    ensures r.hintGenreShown == m.hintGenreShown && r.hintArtistShown == m.hintArtistShown
  {
    m.(cur := data, status := Playing, pending := None)
  }

  /** The request of the pending loader failed: back to idle with the
      loader's own error message. */
  function LoadFailed(m: Model): (r: Model)
    requires m.pending.Some?
    ensures r.status == Idle && r.pending.None? && r.cur == m.cur
    ensures r.error == (if m.pending.value.QuizByCode? then CodeLoadFailed else QuizLoadFailed)
    ensures SameSettings(m, r) && r.feedback == m.feedback
    ensures r.hintGenreShown == m.hintGenreShown && r.hintArtistShown == m.hintArtistShown
  {
    m.(error := if m.pending.value.QuizByCode? then CodeLoadFailed else QuizLoadFailed,
       status := Idle, pending := None)
  }

  /** `check`: without a quiz nothing happens; otherwise the guess is graded
      against the quiz title. */
  function Check(cm: CharModel, m: Model): (r: Model)
    ensures m.cur.None? ==> r == m
    ensures m.cur.Some? ==> r.cur == m.cur && r.pending == m.pending && r.error == m.error
    ensures m.cur.Some? ==> (r.status == Correct <==> Accepts(cm, m.guess, m.cur.value.title))
    ensures m.cur.Some? && r.status == Correct ==> r.feedback == Right(m.cur.value.title, m.cur.value.artist)
    ensures m.cur.Some? && r.status != Correct ==> r.status == Playing && r.feedback == Wrong
    ensures SameSettings(m, r)
    ensures r == m.(status := r.status, feedback := r.feedback)
  {
    match m.cur
    case None => m
    case Some(q) =>
      if Accepts(cm, m.guess, q.title) then m.(status := Correct, feedback := Right(q.title, q.artist))
      else m.(status := Playing, feedback := Wrong)
  }

  /** `giveUp`: without a quiz nothing happens; otherwise the answer is
      revealed. */
  function GiveUp(m: Model): (r: Model)
    ensures m.cur.None? ==> r == m
    ensures m.cur.Some? ==> r.status == GaveUp && r.feedback == Answer(m.cur.value.title, m.cur.value.artist)
    ensures r.cur == m.cur && r.pending == m.pending && r.error == m.error && SameSettings(m, r)
    ensures r == m.(status := r.status, feedback := r.feedback)
  {
    match m.cur
    case None => m
    case Some(q) => m.(status := GaveUp, feedback := Answer(q.title, q.artist))
  }

  /** Editing the guess clears the feedback. */
  function EditGuess(m: Model, text: string): (r: Model)
    ensures r.guess == text && r.feedback == NoFeedback
    ensures r.status == m.status && r.cur == m.cur && r.error == m.error
    ensures r == m.(guess := r.guess, feedback := r.feedback)
  {
    m.(guess := text, feedback := NoFeedback)
  }

  /** The year arrows, clamped to the chart years. */
  function PrevYear(m: Model): (r: Model)
    ensures MinYear <= r.year
    ensures MinYear < m.year ==> r.year == m.year - 1
    ensures m.year <= MinYear ==> r.year == MinYear
    ensures r == m.(year := r.year)
  {
    m.(year := if m.year - 1 < MinYear then MinYear else m.year - 1)
  }

  function NextYear(m: Model): (r: Model)
    ensures r.year <= MaxYear
    ensures m.year < MaxYear ==> r.year == m.year + 1
    ensures MaxYear <= m.year ==> r.year == MaxYear
    ensures r == m.(year := r.year)
  {
    m.(year := if m.year + 1 > MaxYear then MaxYear else m.year + 1)
  }

  /** Everything the user can do, and the settling of a request. */
  datatype Event =
    | ClickStart
    | ClickLoadByCode
    | RequestSucceeded(data: Option<Quiz>)
    | RequestFailed
    | ClickCheck
    | ClickGiveUp
    | ClickGenreHint
    | ClickArtistHint
    | TypeGuess(text: string)
    | TypeCode(text: string)
    | ClickPrevYear
    | ClickNextYear
    | ClickMonth(k: MonthOption)
    | ClickGlobalRandom
    | ClickByMonth
    | ClickFurigana

  /** Whether the event can happen: the `disabled` attributes of the
      buttons and the guess input, the month controls shown only in month
      mode, and a request settling only while one is in flight. */
  function Enabled(m: Model, e: Event): (ok: bool)
    ensures m.status == Loading && ok ==>
      !(e.ClickStart? || e.ClickLoadByCode? || e.ClickCheck? || e.ClickGiveUp? || e.TypeGuess?)
    ensures m.cur.None? && ok ==>
      !(e.ClickCheck? || e.ClickGiveUp? || e.ClickGenreHint? || e.ClickArtistHint? || e.TypeGuess?)
    ensures m.useGlobalRandom && ok ==> !(e.ClickPrevYear? || e.ClickNextYear? || e.ClickMonth?)
    ensures m.pending.None? && ok ==> !(e.RequestSucceeded? || e.RequestFailed?)
    ensures !ok ==>
      || (m.status == Loading && (e.ClickStart? || e.ClickLoadByCode? || e.ClickCheck? || e.ClickGiveUp? || e.TypeGuess?))
      || (m.cur.None? && (e.ClickCheck? || e.ClickGiveUp? || e.ClickGenreHint? || e.ClickArtistHint? || e.TypeGuess?))
      || (m.useGlobalRandom && (e.ClickPrevYear? || e.ClickNextYear? || e.ClickMonth?))
      || (m.pending.None? && (e.RequestSucceeded? || e.RequestFailed?))
  {
    match e
    case ClickStart => m.status != Loading
    case ClickLoadByCode => m.status != Loading
    case RequestSucceeded(_) => m.pending.Some?
    case RequestFailed => m.pending.Some?
    case ClickCheck => m.status != Loading && m.cur.Some?
    case ClickGiveUp => m.status != Loading && m.cur.Some?
    case ClickGenreHint => m.cur.Some?
    case ClickArtistHint => m.cur.Some?
    case TypeGuess(_) => m.status != Loading && m.cur.Some?
    case ClickPrevYear => !m.useGlobalRandom
    case ClickNextYear => !m.useGlobalRandom
    case ClickMonth(_) => !m.useGlobalRandom
    case _ => true
  }

  /** One atomic update of the screen; an event that cannot happen leaves
      it as it is. */
  function Step(cm: CharModel, m: Model, e: Event): (r: Model)
    ensures !Enabled(m, e) ==> r == m
    ensures Valid(m) ==> Valid(r)
    ensures MinYear <= m.year <= MaxYear ==> MinYear <= r.year <= MaxYear
  {
    if !Enabled(m, e) then m
    else match e
      case ClickStart => StartOrNext(m)
      case ClickLoadByCode => LoadByCode(m)
      case RequestSucceeded(data) => LoadSucceeded(m, data)
      case RequestFailed => LoadFailed(m)
      case ClickCheck => Check(cm, m)
      case ClickGiveUp => GiveUp(m)
      case ClickGenreHint => m.(hintGenreShown := true)
      case ClickArtistHint => m.(hintArtistShown := true)
      case TypeGuess(text) => EditGuess(m, text)
      case TypeCode(text) => m.(code := text)
      case ClickPrevYear => PrevYear(m)
      case ClickNextYear => NextYear(m)
      case ClickMonth(k) => m.(month := k)
      case ClickGlobalRandom => m.(useGlobalRandom := true)
      case ClickByMonth => m.(useGlobalRandom := false)
      case ClickFurigana => m.(furiganaOn := !m.furiganaOn)
  }

  /** The events applied in order. */
  function Run(cm: CharModel, m: Model, es: seq<Event>): Model
    decreases |es|
  {
    if |es| == 0 then m else Run(cm, Step(cm, m, es[0]), es[1..])
  }

  /** The feedback line agrees with the status and names the current quiz. */
  predicate FeedbackAgrees(m: Model) {
    match m.feedback
    case NoFeedback => true
    case Wrong => m.status == Playing
    case Right(t, a) => m.status == Correct && m.cur.Some? && m.cur.value.title == t && m.cur.value.artist == a
    case Answer(t, a) => m.status == GaveUp && m.cur.Some? && m.cur.value.title == t && m.cur.value.artist == a
  }

  /** What holds of every state the screen can reach. */
  predicate Valid(m: Model) {
    && MinYear <= m.year <= MaxYear
    && 1 <= m.month <= 12
    && (m.status == Loading <==> m.pending.Some?)
    && (m.status == Loading ==> ClearedForLoad(m))
    && (m.cur.Some? ==> m.status == Playing || m.status == Correct || m.status == GaveUp)
    && (m.status == Correct || m.status == GaveUp ==> m.cur.Some?)
    && (m.error != NoError ==> m.status == Idle)
    && (m.cur.None? ==> !m.hintGenreShown && !m.hintArtistShown)
    && FeedbackAgrees(m)
  }

  lemma InitValid()
    ensures Valid(Init())
  {
  }

  lemma StepPreservesValid(cm: CharModel, m: Model, e: Event)
    requires Valid(m)
    ensures Valid(Step(cm, m, e))
  {
  }

  lemma {:induction false} RunPreservesValid(cm: CharModel, m: Model, es: seq<Event>)
    requires Valid(m)
    ensures Valid(Run(cm, m, es))
    decreases |es|
  {
    if |es| > 0 {
      StepPreservesValid(cm, m, es[0]);
      RunPreservesValid(cm, Step(cm, m, es[0]), es[1..]);
    }
  }

  /** From the first render, whatever happens, the year stays within
      2000..2023, the month within 1..12, and the status, quiz, error, hint
      and feedback agree as `Valid` says. */
  lemma ReachableStatesValid(cm: CharModel, es: seq<Event>)
    ensures Valid(Run(cm, Init(), es))
    ensures MinYear <= Run(cm, Init(), es).year <= MaxYear
    ensures 1 <= Run(cm, Init(), es).month <= 12
  {
    InitValid();
    RunPreservesValid(cm, Init(), es);
  }

  /** While a request is in flight neither loader does anything. */
  lemma LoadersIgnoredWhileLoading(cm: CharModel, m: Model)
    requires m.status == Loading
    ensures Step(cm, m, ClickStart) == m
    ensures Step(cm, m, ClickLoadByCode) == m
    ensures StartOrNext(m) == m && LoadByCode(m) == m
  {
  }

  /** A settled request ends the load: in `playing` with the data, or in
      `idle` with the loader's error and no quiz. */
  lemma LoadSettles(cm: CharModel, m: Model, data: Option<Quiz>)
    requires Valid(m) && m.status == Loading
    ensures Step(cm, m, RequestSucceeded(data)).status == Playing
    ensures Step(cm, m, RequestSucceeded(data)).cur == data
    ensures Step(cm, m, RequestFailed).status == Idle
    ensures Step(cm, m, RequestFailed).cur.None?
    ensures Step(cm, m, RequestFailed).error != NoError
  {
  }

  /** Grading and giving up need a quiz. */
  lemma NoQuizNoGrading(cm: CharModel, m: Model)
    requires m.cur.None?
    ensures Step(cm, m, ClickCheck) == m && Step(cm, m, ClickGiveUp) == m
  {
  }

  /** With a quiz on screen, grading ends in `correct` exactly when the
      guess is accepted and in `playing` otherwise. */
  lemma CheckOutcome(cm: CharModel, m: Model)
    requires m.cur.Some? && m.status != Loading
    ensures Step(cm, m, ClickCheck).status == Correct <==> Accepts(cm, m.guess, m.cur.value.title)
    ensures Step(cm, m, ClickCheck).status == Correct || Step(cm, m, ClickCheck).status == Playing
  {
  }

  /** With a quiz on screen, giving up ends in `giveup` and reveals the
      answer. */
  lemma GiveUpOutcome(cm: CharModel, m: Model)
    requires m.cur.Some? && m.status != Loading
    ensures Step(cm, m, ClickGiveUp).status == GaveUp
    ensures Step(cm, m, ClickGiveUp).feedback == Answer(m.cur.value.title, m.cur.value.artist)
  {
  }

  /** The hint buttons reveal their hint once a quiz is on screen. */
  lemma GenreHintShows(cm: CharModel, m: Model)
    requires m.cur.Some?
    ensures Step(cm, m, ClickGenreHint) == m.(hintGenreShown := true)
  {
  }

  lemma ArtistHintShows(cm: CharModel, m: Model)
    requires m.cur.Some?
    ensures Step(cm, m, ClickArtistHint) == m.(hintArtistShown := true)
  {
  }

  /** Typing in the guess box, with a quiz on screen and nothing loading,
      stores the text and clears the feedback. */
  lemma TypeGuessEdits(cm: CharModel, m: Model, text: string)
    requires m.cur.Some? && m.status != Loading
    ensures Step(cm, m, TypeGuess(text)) == m.(guess := text, feedback := NoFeedback)
  {
  }

  /** Typing in the code box stores the text, whatever the state. */
  lemma TypeCodeStores(cm: CharModel, m: Model, text: string)
    ensures Step(cm, m, TypeCode(text)) == m.(code := text)
  {
  }

  /** In month mode the year arrows move one year within 2000..2023. */
  lemma YearArrowsMove(cm: CharModel, m: Model)
    requires !m.useGlobalRandom
    ensures Step(cm, m, ClickPrevYear) == m.(year := if m.year - 1 < MinYear then MinYear else m.year - 1)
    ensures Step(cm, m, ClickNextYear) == m.(year := if m.year + 1 > MaxYear then MaxYear else m.year + 1)
  {
  }

  /** In month mode a month button selects that month. */
  lemma MonthButtonSelects(cm: CharModel, m: Model, k: MonthOption)
    requires !m.useGlobalRandom
    ensures Step(cm, m, ClickMonth(k)) == m.(month := k)
  {
  }

  /** The mode buttons switch between global random and month mode. */
  lemma ModeButtonsSwitch(cm: CharModel, m: Model)
    ensures Step(cm, m, ClickGlobalRandom) == m.(useGlobalRandom := true)
    ensures Step(cm, m, ClickByMonth) == m.(useGlobalRandom := false)
  {
  }

  /** The furigana button flips the furigana flag. */
  lemma FuriganaToggles(cm: CharModel, m: Model)
    ensures Step(cm, m, ClickFurigana) == m.(furiganaOn := !m.furiganaOn)
  {
  }

  /** Hint flags are only ever cleared by a loader starting a new round. */
  lemma HintsClearedOnlyByNewRound(cm: CharModel, m: Model, e: Event)
    ensures var r := Step(cm, m, e);
      (m.hintGenreShown && !r.hintGenreShown) || (m.hintArtistShown && !r.hintArtistShown)
      ==> (e == ClickStart || e == ClickLoadByCode) && m.status != Loading && ClearedForLoad(r)
  {
  }
}

=== FILE: utf16.dfy ===
/** JavaScript strings are sequences of UTF-16 code units: `length` and
    indexing count code units, so a character outside the Basic
    Multilingual Plane counts twice. The model's strings are sequences of
    Unicode scalar values; this module encodes them as JavaScript sees them. */
module Utf16 {

  type CodeUnit = x: int | 0 <= x < 0x1_0000

  predicate IsHighSurrogate(u: CodeUnit) {
    0xD800 <= u < 0xDC00
  }

  predicate IsLowSurrogate(u: CodeUnit) {
    0xDC00 <= u < 0xE000
  }

  /** The code units of one character: itself inside the Basic Multilingual
      Plane, a high/low surrogate pair above it. */
  function EncodeChar(c: char): (r: seq<CodeUnit>)
    ensures 1 <= |r| <= 2
    ensures |r| == 1 <==> c as int < 0x1_0000
    ensures |r| == 1 ==> r[0] == c as int && !IsHighSurrogate(r[0]) && !IsLowSurrogate(r[0])
    ensures |r| == 2 ==> IsHighSurrogate(r[0]) && IsLowSurrogate(r[1])
  {
    var v := c as int;
    if v < 0x1_0000 then [v]
    else [0xD800 + (v - 0x1_0000) / 0x400, 0xDC00 + (v - 0x1_0000) % 0x400]
  }

  /** The code units of a string, in order. */
  function Encode(s: string): (r: seq<CodeUnit>)
    ensures |s| <= |r| <= 2 * |s|
    ensures |r| == 0 <==> |s| == 0
  {
    if |s| == 0 then [] else EncodeChar(s[0]) + Encode(s[1..])
  }

  lemma EncodeCharInjective(c: char, d: char)
    requires EncodeChar(c) == EncodeChar(d)
    ensures c == d
  {
    var v, w := c as int, d as int;
    if v >= 0x1_0000 {
      assert (v - 0x1_0000) / 0x400 == (w - 0x1_0000) / 0x400;
      assert (v - 0x1_0000) % 0x400 == (w - 0x1_0000) % 0x400;
    }
  }

  /** Two strings have the same code units only if they are equal, so
      comparing the encodings decides string equality. */
  lemma {:induction false} EncodeInjective(s: string, t: string)
    ensures Encode(s) == Encode(t) <==> s == t
    decreases |s|
  {
    if Encode(s) == Encode(t) && |s| > 0 {
      assert |t| > 0;
      var es, et := EncodeChar(s[0]), EncodeChar(t[0]);
      assert Encode(s) == es + Encode(s[1..]);
      assert Encode(t) == et + Encode(t[1..]);
      // The first code unit tells whether a surrogate pair follows.
      assert Encode(s)[0] == es[0] && Encode(t)[0] == et[0];
      assert |es| == |et|;
      assert es == Encode(s)[..|es|] == Encode(t)[..|et|] == et;
      EncodeCharInjective(s[0], t[0]);
      assert Encode(s[1..]) == Encode(s)[|es|..] == Encode(t)[|et|..] == Encode(t[1..]);
      EncodeInjective(s[1..], t[1..]);
      assert s == [s[0]] + s[1..] && t == [t[0]] + t[1..];
    }
  }

  /** For text inside the Basic Multilingual Plane (the common case for
      song titles), JavaScript's length is the number of characters. */
  lemma {:induction false} EncodeLengthBmp(s: string)
    requires forall i :: 0 <= i < |s| ==> s[i] as int < 0x1_0000
    ensures |Encode(s)| == |s|
    decreases |s|
  {
    if |s| > 0 {
      EncodeLengthBmp(s[1..]);
    }
  }
}

=== FILE: wrappers.dfy ===
/** Optional values: a JavaScript `null` or a present value. */
module Wrappers {

  datatype Option<+T> = None | Some(value: T)
}
